=== FILE: README.md ===
# Revenue division of a law-firm payment

This project models `calculate_division`, the rule engine of a law-firm case and
revenue-sharing tracker. Given a case's action type, a payment's gross amount,
the payment's value type and whether the case has a consultant, the engine splits
the amount four ways: client, firm ("FinanceManager"), partner and consultant. It
tries four rules in order and the first one that matches wins:

1. the social-security monthly-installment rule;
2. the percentage-fee rule;
3. the procedural-costs 50/50 rule;
4. the all-zero fallback.

The repository holds two copies of the engine, and the model covers both.
`calculations.py` is the copy the application calls. It charges a 25% fee and a
10% commission, and its rule 1 also admits the action type
"Administrative Social Security". `calculos.py` charges 30% and 5%, and its
rule 1 accepts only action types that start with "Social Security".

The model has these modules:

- `Classification` (classification.dfy): the classification strings, Python's
  `startswith` (Dafny's sequence-prefix `<=`), and the fee, principal-amount and
  procedural-costs guards that both copies share.
- `Split` (split.dfy): the `Shares` datatype, the zero split, and the deduction
  of a commission from the firm's share.
- `Division` (division.dfy): the engine, written once over a `Config` value. A
  `Config` holds the fee rate, the commission rate, and whether rule 1 admits the
  administrative action type. The rule splits take the amounts the source
  computes (`total_fees` and the commission) as arguments. `SelectRule` picks the rule. It is specified as
  "the first rule in priority order whose guard holds". `Divide` applies that
  rule's split.
- `Calculations` (calculations.dfy) and `Calculos` (calculos.dfy): one module per
  source file. Each fixes its rates and rule-1 guard as named constants and
  defines `CalculateDivision`.
- `Divergence` (divergence.dfy): where the two copies disagree.
- `Installments` (installments.dfy): the engine as the installment generator
  uses it. Every installment of a plan gets the same "Monthly Installment" split.

Amounts are Dafny `real`s, so the sum invariant holds exactly. The source uses
floats; neither their rounding nor the IEEE special values (NaN and the
infinities) are modelled.

Where the comments and the code disagree, the model follows the code. In
calculations.py the comment on the fee rule says "30%", but line 33 uses 0.25.
The model uses 0.25.

## Model

| member | source | states |
|---|---|---|
| Classification.StartsWith | calculations.py:18 | `startswith(prefix)` holds if and only if the prefix is no longer than the string and agrees with it character by character. |
| Classification.FeeCombination | calculations.py:30-31 | The fee guard holds if and only if the (action type, value type) pair is one of the seven listed pairs. A fee combination is never a monthly installment or procedural costs. |
| Classification.PrincipalAmount | calculations.py:39 | A value type carries a fee-rule commission if and only if it is admitted by some fee combination ("Civil" or "Social Security RPV/Court Order") and is not "Remaining Amount". |
| Classification.CostsCombination | calculations.py:47 | The procedural-costs guard holds if and only if the value type is "Procedural Costs" and the action type is not the administrative one. It never overlaps a fee combination or a monthly installment. |
| Classification.SocialSecurityPrefixOfKnownTypes | calculations.py:18 | "Social Security RPV/Court Order" passes the `startswith("Social Security")` test. "Administrative Social Security", "Civil" and "Labor" do not. |
| Classification.MonthlyInstallmentOnlyInRuleOne | calculations.py:30-47 | A "Monthly Installment" is never a fee combination or a procedural-costs combination, so only rule 1 can take it. |
| Classification.FeeAndCostsDisjoint | calculations.py:30-47 | No classification satisfies both the fee guard and the procedural-costs guard. |
| Split.WithCommission | calculations.py:22-25 | Paying a commission moves exactly that amount from the firm's share to the consultant. The client's share, the partner's share and the total are unchanged. |
| Division.SelectRule | calculations.py:17-54 | First match wins. The chosen rule's guard holds, and no rule earlier in the priority order has a guard that holds. |
| Division.FirstMatchIsUnique | calculations.py:17-54 | Any rule whose guard holds, with no earlier rule's guard holding, is the rule the engine selects. |
| Division.InstallmentCombination | calculations.py:18 | Rule 1's guard. For every action type other than the administrative one, and for every action type in a copy without the administrative admission, it holds if and only if the value type is "Monthly Installment" and the action type starts with "Social Security". For the administrative action type, it holds if and only if the copy admits that type and the value type is "Monthly Installment". It never overlaps the fee or procedural-costs guards. |
| Division.InstallmentSplit | calculations.py:18-26 | Rule 1 with a given `commission` argument. The client gets nothing and the partner half. The firm's share plus the consultant's equals the other half. The consultant gets the `commission` argument when there is a consultant, and 0 otherwise. The four shares sum to the amount. |
| Division.FeeSplit | calculations.py:33-43 | Rule 2 with given `totalFees`, `commission` and `payCommission` arguments. The client gets the amount minus `totalFees`, and the partner gets half of `totalFees`. The firm's share plus the consultant's equals the other half. The consultant gets `commission` when `payCommission` holds, and 0 otherwise. The four shares sum to the amount. |
| Division.CostsSplit | calculations.py:47-51 | Rule 3 gives the client and the consultant nothing, and gives the firm and the partner equal shares that sum to the amount. |
| Division.Divide | calculations.py:5-54 | When a rule fires, the shares sum to the gross amount. When none fires, the result is all zeros. The firm's share plus the consultant's always equals the partner's share. Without a consultant, the commission is 0. |
| Division.InstallmentRuleHasPriority | calculations.py:17-26 | Whenever the rule-1 guard holds, the result is the rule-1 split with a commission of the commission rate times the amount, whatever the fee and procedural-costs guards say. The consultant gets that commission when there is one, and 0 otherwise. |
| Division.PercentageFeeRuleSplit | calculations.py:30-43 | Once the fee rule is selected, the result is the fee split with fees of the fee rate times the amount. The client keeps the amount minus those fees, and the partner gets half the fees. The consultant gets the commission rate times the amount exactly when there is a consultant and the value type is a principal amount. |
| Division.FallbackIsZero | calculations.py:10-54 | If no rule's guard holds, all four shares are exactly 0. |
| Division.ZeroExactlyOnFallback | calculations.py:10-54 | For a non-zero amount, the result is all zeros if and only if no rule fires. |
| Division.CommissionComesFromFinanceManager | calculations.py:19-42 | Adding a consultant leaves the client's and partner's shares unchanged. It moves exactly the commission from the firm's share to the consultant. |
| Division.InstallmentSplitFloor | calculations.py:19-25 | Under rule 1, a commission between 0 and half the amount leaves every share non-negative, and the firm keeps at least half the amount minus the commission. |
| Division.FeeSplitFloor | calculations.py:33-42 | Under the fee rule, fees of at most the amount and a commission of at most half the fees leave every share non-negative. The firm keeps at least half the fees minus the commission. |
| Calculations.InstallmentGuard | calculations.py:18 | The live rule-1 guard holds if and only if the shared engine's rule-1 guard holds with the administrative type admitted, and if and only if the live engine selects rule 1. |
| Calculations.CalculateDivision | calculations.py:5-54 | In the live copy, a firing rule gives shares that sum to the amount. An unmatched classification gives zeros. Firm plus consultant equals partner. A non-negative amount gives non-negative shares. |
| Calculations.SharesNonNegative | calculations.py:19-42 | For a non-negative amount, every live share is non-negative. The firm keeps at least 0.4·g under rule 1 and at least 0.025·g under the fee rule. |
| Calculations.InstallmentRule | calculations.py:18-26 | Under the live rule 1, the split is 0 / g/2 − 0.1·g (or g/2) / g/2 / 0.1·g (or 0). The firm keeps at least 0.4·g. |
| Calculations.InstallmentRulePriority | calculations.py:17-26 | In the live copy, the rule-1 guard (the prefix or the administrative type) always yields the rule-1 split. |
| Calculations.FeeRule | calculations.py:30-43 | Under the live fee rule, the split is g − 0.25·g / 0.125·g − commission / 0.125·g / commission. The commission is 0.1·g only for a principal amount with a consultant. The firm keeps at least 0.025·g. |
| Calculations.RemainingAmountNoCommission | calculations.py:38-42 | A "Remaining Amount" pays no commission, and with a consultant its split is the same as without one. |
| Calculations.ProceduralCostsRule | calculations.py:45-51 | Procedural costs of any action type other than the administrative one split 0 / g/2 / g/2 / 0, whether or not there is a consultant. |
| Calculations.AdministrativeProceduralCostsIsZero | calculations.py:46-54 | Administrative procedural costs match no rule and give all zeros. |
| Calculations.RpvCourtOrderInstallmentIsRuleOne | calculations.py:18 | A monthly installment of a "Social Security RPV/Court Order" case is caught by rule 1 through the prefix test. |
| Calculations.CivilProvidedAmountExample | calculations.py:30-51 | A Civil provided amount of 1000 splits 750/125/125/0, or 750/25/125/100 with a consultant. Civil procedural costs of 500 split 0/250/250/0. |
| Calculos.InstallmentGuard | calculos.py:16 | The alternate rule-1 guard holds if and only if the shared engine's rule-1 guard holds without the administrative admission, and if and only if the alternate engine selects rule 1. It never holds for the administrative action type. |
| Calculos.CalculateDivision | calculos.py:3-52 | In the alternate copy, a firing rule gives shares that sum to the amount. An unmatched classification gives zeros. Firm plus consultant equals partner. A non-negative amount gives non-negative shares. |
| Calculos.SharesNonNegative | calculos.py:17-40 | For a non-negative amount, every alternate share is non-negative. The firm keeps at least 0.45·g under rule 1 and at least 0.10·g under the fee rule. |
| Calculos.InstallmentRule | calculos.py:16-24 | Under the alternate rule 1 (prefix only), the split is 0 / g/2 − 0.05·g (or g/2) / g/2 / 0.05·g (or 0). The firm keeps at least 0.45·g. |
| Calculos.AdministrativeInstallmentIsZero | calculos.py:16-52 | An administrative monthly installment fails every guard in the alternate copy and gives zeros. |
| Calculos.FeeRule | calculos.py:28-41 | Under the alternate fee rule, the split is g − 0.30·g / 0.15·g − commission / 0.15·g / commission. The commission is 0.05·g only for a principal amount with a consultant. The firm keeps at least 0.10·g. |
| Calculos.RemainingAmountNoCommission | calculos.py:36-40 | A "Remaining Amount" pays no commission in the alternate copy, and with a consultant its split is the same as without one. |
| Calculos.ProceduralCostsRule | calculos.py:43-52 | Procedural costs split 0 / g/2 / g/2 / 0, except for the administrative action type, which gives zeros. |
| Calculos.ConsultantLeavesClientAndPartner | calculos.py:17-40 | In the alternate copy, a consultant never changes the client's or the partner's share. |
| Divergence.RuleChoiceDiffersOnlyOnAdministrativeInstallments | calculations.py:18 | The two copies select different rules if and only if the classification is ("Administrative Social Security", "Monthly Installment"). |
| Divergence.CopiesDisagreeOnAdministrativeInstallment | calculos.py:16 | For a non-zero amount on that classification, the alternate copy gives zeros and the live copy gives the partner half, so the two results differ. |
| Divergence.CopiesAgreeWithoutRates | calculos.py:43-52 | Where the alternate copy selects the procedural-costs rule or the fallback, outside the divergent classification, both copies return the same split. |
| Installments.PlanSplits | app.py:280-285 | A plan with count n records n splits when n is non-negative and none when n is negative, as `range(n)` does. Each split is the live engine's "Monthly Installment" split of the installment amount. |
| Installments.UniformPlanTotal | app.py:284-297 | A plan whose installments all split alike has a column-wise total of n times that split. |
| Installments.MonthlySplit | app.py:285 | One installment's split gives the whole installment amount, half to the partner, when the action passes the live rule-1 guard. Otherwise it is all zeros. |
| Installments.PlanAddsUp | app.py:280-297 | For any splits recorded as `PlanSplits` records them (one per installment, none for a negative count), the whole plan's shares sum to the number of installments times the installment amount when the action passes rule 1, and the partner gets half of that. When the action fails rule 1, the plan totals zero. |
| Installments.OtherInstallmentsAreZero | app.py:285 | Installments of an action that fails the live rule-1 guard (Civil, Labor, any other type) are all-zero splits. |

## Left out

- Everything in app.py other than the engine call inside the installment loop: the web routes, authentication, database models and persistence, the spreadsheet export and the command-line user management. These are I/O and framework code.
- Installment dates (the month stepping with `relativedelta`) and the notes text. The plan model keeps only the split each installment receives.
- How the caller derives `has_consultant` from whether a consultant name is set. The model takes it as a boolean input.
- The default value `has_consultant=False`. Every caller passes the argument explicitly.
- Floating-point rounding. Amounts are exact reals, so the sum invariant is stated exactly, not within a tolerance.
- IEEE special values. Amounts parsed with `float(...)` (app.py:194, app.py:279) may be NaN or ±infinity. Under them the source's arithmetic yields NaN shares (an infinite amount with a consultant gives the firm inf/2 − inf·0.1 under rule 1, and the client inf − inf·0.25 under the fee rule). So the sum and non-negativity clauses of `CalculateDivision` hold only for finite amounts, which are the only amounts a real models.
- Purity and determinism. A Dafny function has no state and gives equal results on equal inputs by construction, so no member states it.

=== FILE: calculations.dfy ===
/** The live copy of the engine (the one the case-management layer calls):
    a 25% fee, a 10% consultant commission, and an installment rule that also
    admits the "Administrative Social Security" action type. */
module Calculations {
  import opened Classification
  import opened Split
  import Division

  const FeeRate: real := 0.25
  const CommissionRate: real := 0.1
  const Live: Division.Config := Division.Config(FeeRate, CommissionRate, true)

  /** The rule-1 guard of this copy: the "Social Security" prefix, or exactly
      the administrative action type, paid as a monthly installment. */
  function InstallmentGuard(actionType: string, valueType: string): (b: bool)
    ensures b <==> Division.InstallmentCombination(Live, actionType, valueType)
    ensures b <==> Division.SelectRule(Live, actionType, valueType) == Division.SocialSecurityInstallmentRule
  {
    (StartsWith(actionType, SocialSecurityPrefix) || actionType == AdministrativeSocialSecurity)
    && valueType == MonthlyInstallment
  }

  /** `calculate_division` of the live copy. */
  function CalculateDivision(actionType: string, grossAmount: real, valueType: string, hasConsultant: bool): (r: Shares)
    ensures (|| InstallmentGuard(actionType, valueType)
             || FeeCombination(actionType, valueType)
             || CostsCombination(actionType, valueType)) ==> r.Total() == grossAmount
    ensures (&& !InstallmentGuard(actionType, valueType)
             && !FeeCombination(actionType, valueType)
             && !CostsCombination(actionType, valueType)) ==> r == Zero
    ensures r.financeManager + r.consultant == r.partner
    ensures grossAmount >= 0.0 ==> r.NonNegative()
  {
    var r := Division.Divide(Live, actionType, grossAmount, valueType, hasConsultant);
    assert grossAmount >= 0.0 ==> r.NonNegative() by {
      if grossAmount >= 0.0 {
        SharesNonNegative(actionType, grossAmount, valueType, hasConsultant);
      }
    }
    r
  }

  /** A non-negative amount never gives a negative share: the commission
      always fits inside the finance manager's half. The finance manager keeps
      at least 0.4 of the amount under rule 1 and 0.025 under the fee rule. */
  lemma SharesNonNegative(actionType: string, grossAmount: real, valueType: string, hasConsultant: bool)
    requires grossAmount >= 0.0
    ensures var r := Division.Divide(Live, actionType, grossAmount, valueType, hasConsultant);
            && r.NonNegative()
            && (InstallmentGuard(actionType, valueType) ==> r.financeManager >= 0.4 * grossAmount)
            && (FeeCombination(actionType, valueType) ==>
                  r.financeManager >= 0.025 * grossAmount)
  {
    match Division.SelectRule(Live, actionType, valueType)
    case SocialSecurityInstallmentRule =>
      Division.InstallmentSplitFloor(grossAmount, grossAmount * CommissionRate, hasConsultant);
    case PercentageFeeRule =>
      Division.FeeSplitFloor(grossAmount, grossAmount * FeeRate, grossAmount * CommissionRate,
                             hasConsultant && PrincipalAmount(valueType));
    case ProceduralCostsRule =>
    case Fallback =>
  }

  /** Rule 1: client 0, partner half, the finance manager half less a 10%
      commission when there is a consultant; at least 40% stays with the firm. */
  lemma InstallmentRule(actionType: string, grossAmount: real, valueType: string, hasConsultant: bool)
    requires InstallmentGuard(actionType, valueType)
    ensures var r := CalculateDivision(actionType, grossAmount, valueType, hasConsultant);
            var commission := if hasConsultant then grossAmount * 0.1 else 0.0;
            && r == Shares(0.0, grossAmount / 2.0 - commission, grossAmount / 2.0, commission)
            && (grossAmount >= 0.0 ==> r.financeManager >= 0.4 * grossAmount)
  {
  }

  /** Rule 1 takes precedence over the fee and procedural-costs rules. */
  lemma InstallmentRulePriority(actionType: string, grossAmount: real, valueType: string, hasConsultant: bool)
    requires InstallmentGuard(actionType, valueType)
    ensures CalculateDivision(actionType, grossAmount, valueType, hasConsultant)
            == Division.InstallmentSplit(grossAmount, grossAmount * CommissionRate, hasConsultant)
  {
  }

  /** Rule 2: 75% to the client, 12.5% each to finance manager and partner;
      a 10% commission, only on a principal amount, comes out of the finance
      manager's 12.5%, which keeps at least 2.5% of the amount. */
  lemma FeeRule(actionType: string, grossAmount: real, valueType: string, hasConsultant: bool)
    requires FeeCombination(actionType, valueType)
    ensures var r := CalculateDivision(actionType, grossAmount, valueType, hasConsultant);
            var commission := if hasConsultant && PrincipalAmount(valueType) then grossAmount * 0.1 else 0.0;
            && r == Shares(grossAmount - grossAmount * 0.25, grossAmount * 0.125 - commission, grossAmount * 0.125, commission)
            && (grossAmount >= 0.0 ==> r.financeManager >= 0.025 * grossAmount)
  {
    Classification.MonthlyInstallmentOnlyInRuleOne(actionType);
  }

  /** A "Remaining Amount" never pays the consultant, consultant or not. */
  lemma RemainingAmountNoCommission(actionType: string, grossAmount: real)
    requires FeeCombination(actionType, RemainingAmount)
    ensures CalculateDivision(actionType, grossAmount, RemainingAmount, true).consultant == 0.0
    ensures CalculateDivision(actionType, grossAmount, RemainingAmount, true)
            == CalculateDivision(actionType, grossAmount, RemainingAmount, false)
  {
    FeeRule(actionType, grossAmount, RemainingAmount, true);
  }

  /** Rule 3: procedural costs are halved between finance manager and partner,
      with nothing for the client or a consultant. */
  lemma ProceduralCostsRule(actionType: string, grossAmount: real, hasConsultant: bool)
    requires actionType != AdministrativeSocialSecurity
    ensures CalculateDivision(actionType, grossAmount, ProceduralCosts, hasConsultant)
            == Shares(0.0, grossAmount / 2.0, grossAmount / 2.0, 0.0)
  {
    Classification.FeeAndCostsDisjoint(actionType, ProceduralCosts);
  }

  /** The administrative carve-out: its procedural costs match no rule. */
  lemma AdministrativeProceduralCostsIsZero(grossAmount: real, hasConsultant: bool)
    ensures CalculateDivision(AdministrativeSocialSecurity, grossAmount, ProceduralCosts, hasConsultant) == Zero
  {
    Classification.SocialSecurityPrefixOfKnownTypes();
  }

  /** The prefix test catches the RPV/Court Order subtype too: its monthly
      installments go through rule 1, not the fee rule. */
  lemma RpvCourtOrderInstallmentIsRuleOne(grossAmount: real, hasConsultant: bool)
    ensures CalculateDivision(SocialSecurityRpvCourtOrder, grossAmount, MonthlyInstallment, hasConsultant)
            == Division.InstallmentSplit(grossAmount, grossAmount * CommissionRate, hasConsultant)
  {
    Classification.SocialSecurityPrefixOfKnownTypes();
    InstallmentRulePriority(SocialSecurityRpvCourtOrder, grossAmount, MonthlyInstallment, hasConsultant);
  }

  /** The worked figures for a Civil provided amount of 1000. */
  lemma CivilProvidedAmountExample()
    ensures CalculateDivision(Civil, 1000.0, ProvidedAmount, false) == Shares(750.0, 125.0, 125.0, 0.0)
    ensures CalculateDivision(Civil, 1000.0, ProvidedAmount, true) == Shares(750.0, 25.0, 125.0, 100.0)
    ensures CalculateDivision(Civil, 500.0, ProceduralCosts, true) == Shares(0.0, 250.0, 250.0, 0.0)
  {
    FeeRule(Civil, 1000.0, ProvidedAmount, false);
    FeeRule(Civil, 1000.0, ProvidedAmount, true);
    ProceduralCostsRule(Civil, 500.0, true);
  }
}

=== FILE: calculos.dfy ===
/** The alternate copy of the engine: a 30% fee, a 5% consultant commission,
    and an installment rule guarded by the "Social Security" prefix alone. */
module Calculos {
  import opened Classification
  import opened Split
  import Division

  const FeeRate: real := 0.30
  const CommissionRate: real := 0.05
  const Variant: Division.Config := Division.Config(FeeRate, CommissionRate, false)

  /** The rule-1 guard of this copy: only the "Social Security" prefix. */
  function InstallmentGuard(actionType: string, valueType: string): (b: bool)
    ensures b <==> Division.InstallmentCombination(Variant, actionType, valueType)
    ensures b <==> Division.SelectRule(Variant, actionType, valueType) == Division.SocialSecurityInstallmentRule
    ensures actionType == AdministrativeSocialSecurity ==> !b
  {
    StartsWith(actionType, SocialSecurityPrefix) && valueType == MonthlyInstallment
  }

  /** `calculate_division` of the alternate copy. */
  function CalculateDivision(actionType: string, grossAmount: real, valueType: string, hasConsultant: bool): (r: Shares)
    ensures (|| InstallmentGuard(actionType, valueType)
             || FeeCombination(actionType, valueType)
             || CostsCombination(actionType, valueType)) ==> r.Total() == grossAmount
    ensures (&& !InstallmentGuard(actionType, valueType)
             && !FeeCombination(actionType, valueType)
             && !CostsCombination(actionType, valueType)) ==> r == Zero
    ensures r.financeManager + r.consultant == r.partner
    ensures grossAmount >= 0.0 ==> r.NonNegative()
  {
    var r := Division.Divide(Variant, actionType, grossAmount, valueType, hasConsultant);
    assert grossAmount >= 0.0 ==> r.NonNegative() by {
      if grossAmount >= 0.0 {
        SharesNonNegative(actionType, grossAmount, valueType, hasConsultant);
      }
    }
    r
  }

  /** A non-negative amount never gives a negative share: the commission
      always fits inside the finance manager's half. The finance manager keeps
      at least 0.45 of the amount under rule 1 and 0.10 under the fee rule. */
  lemma SharesNonNegative(actionType: string, grossAmount: real, valueType: string, hasConsultant: bool)
    requires grossAmount >= 0.0
    ensures var r := Division.Divide(Variant, actionType, grossAmount, valueType, hasConsultant);
            && r.NonNegative()
            && (InstallmentGuard(actionType, valueType) ==> r.financeManager >= 0.45 * grossAmount)
            && (FeeCombination(actionType, valueType) ==>
                  r.financeManager >= 0.10 * grossAmount)
  {
    match Division.SelectRule(Variant, actionType, valueType)
    case SocialSecurityInstallmentRule =>
      Division.InstallmentSplitFloor(grossAmount, grossAmount * CommissionRate, hasConsultant);
    case PercentageFeeRule =>
      Division.FeeSplitFloor(grossAmount, grossAmount * FeeRate, grossAmount * CommissionRate,
                             hasConsultant && PrincipalAmount(valueType));
    case ProceduralCostsRule =>
    case Fallback =>
  }

  /** Rule 1: client 0, partner half, the finance manager half less a 5%
      commission when there is a consultant. */
  lemma InstallmentRule(actionType: string, grossAmount: real, valueType: string, hasConsultant: bool)
    requires InstallmentGuard(actionType, valueType)
    ensures var r := CalculateDivision(actionType, grossAmount, valueType, hasConsultant);
            var commission := if hasConsultant then grossAmount * 0.05 else 0.0;
            && r == Shares(0.0, grossAmount / 2.0 - commission, grossAmount / 2.0, commission)
            && (grossAmount >= 0.0 ==> r.financeManager >= 0.45 * grossAmount)
  {
  }

  /** Without the administrative disjunct, its monthly installments match no
      rule at all and come out as zeros. */
  lemma AdministrativeInstallmentIsZero(grossAmount: real, hasConsultant: bool)
    ensures CalculateDivision(AdministrativeSocialSecurity, grossAmount, MonthlyInstallment, hasConsultant) == Zero
  {
    Classification.SocialSecurityPrefixOfKnownTypes();
    Classification.MonthlyInstallmentOnlyInRuleOne(AdministrativeSocialSecurity);
  }

  /** Rule 2: 70% to the client, 15% each to finance manager and partner; a 5%
      commission, only on a principal amount, comes out of the finance
      manager's 15%, which keeps at least 10% of the amount. */
  lemma FeeRule(actionType: string, grossAmount: real, valueType: string, hasConsultant: bool)
    requires FeeCombination(actionType, valueType)
    ensures var r := CalculateDivision(actionType, grossAmount, valueType, hasConsultant);
            var commission := if hasConsultant && PrincipalAmount(valueType) then grossAmount * 0.05 else 0.0;
            && r == Shares(grossAmount - grossAmount * 0.30, grossAmount * 0.15 - commission, grossAmount * 0.15, commission)
            && (grossAmount >= 0.0 ==> r.financeManager >= 0.10 * grossAmount)
  {
    Classification.MonthlyInstallmentOnlyInRuleOne(actionType);
  }

  /** A "Remaining Amount" never pays the consultant, consultant or not. */
  lemma RemainingAmountNoCommission(actionType: string, grossAmount: real)
    requires FeeCombination(actionType, RemainingAmount)
    ensures CalculateDivision(actionType, grossAmount, RemainingAmount, true).consultant == 0.0
    ensures CalculateDivision(actionType, grossAmount, RemainingAmount, true)
            == CalculateDivision(actionType, grossAmount, RemainingAmount, false)
  {
    FeeRule(actionType, grossAmount, RemainingAmount, true);
  }

  /** Rule 3 with its administrative carve-out: an even split between finance
      manager and partner, except that administrative procedural costs are zero. */
  lemma ProceduralCostsRule(actionType: string, grossAmount: real, hasConsultant: bool)
    ensures CalculateDivision(actionType, grossAmount, ProceduralCosts, hasConsultant)
            == if actionType == AdministrativeSocialSecurity then Zero
               else Shares(0.0, grossAmount / 2.0, grossAmount / 2.0, 0.0)
  {
    Classification.FeeAndCostsDisjoint(actionType, ProceduralCosts);
    Classification.SocialSecurityPrefixOfKnownTypes();
  }

  /** Adding a consultant never changes the client's or the partner's share. */
  lemma ConsultantLeavesClientAndPartner(actionType: string, grossAmount: real, valueType: string)
    ensures CalculateDivision(actionType, grossAmount, valueType, true).client
            == CalculateDivision(actionType, grossAmount, valueType, false).client
    ensures CalculateDivision(actionType, grossAmount, valueType, true).partner
            == CalculateDivision(actionType, grossAmount, valueType, false).partner
  {
    Division.CommissionComesFromFinanceManager(Variant, actionType, grossAmount, valueType);
  }
}

=== FILE: classification.dfy ===
/** The classification strings the division rules are keyed on, and the rule
    guards that both copies of the engine share. Action and value types stay
    free-form strings, as in the source: an unrecognised string simply matches
    no rule. */
module Classification {

  // Action types (case categories)
  const Civil: string := "Civil"
  const Labor: string := "Labor"
  const SocialSecurityPrefix: string := "Social Security"
  const AdministrativeSocialSecurity: string := "Administrative Social Security"
  const SocialSecurityRpvCourtOrder: string := "Social Security RPV/Court Order"

  // Value types (payment categories)
  const ProvidedAmount: string := "Provided Amount"
  const RemainingAmount: string := "Remaining Amount"
  const Rpv: string := "RPV"
  const CourtOrder: string := "Court Order"
  const ProceduralCosts: string := "Procedural Costs"
  const MonthlyInstallment: string := "Monthly Installment"

  /** Python's `str.startswith`: `prefix` is an initial segment of `s`,
      character by character. */
  function StartsWith(s: string, prefix: string): (b: bool)
    ensures b <==> |prefix| <= |s| && forall i :: 0 <= i < |prefix| ==> s[i] == prefix[i]
  {
    prefix <= s
  }

  /** The seven action/value pairs the fee rule lists. */
  const FeeTable: set<(string, string)> := {
    (Civil, ProvidedAmount), (Civil, RemainingAmount),
    (Labor, ProvidedAmount), (Labor, RemainingAmount),
    (SocialSecurityRpvCourtOrder, Rpv), (SocialSecurityRpvCourtOrder, CourtOrder),
    (SocialSecurityRpvCourtOrder, RemainingAmount)
  }

  /** The action/value combinations on which the percentage fee is charged:
      exactly the pairs of the table, so never a monthly installment nor
      procedural costs. */
  function FeeCombination(actionType: string, valueType: string): (b: bool)
    ensures b <==> (actionType, valueType) in FeeTable
    ensures b ==> valueType != MonthlyInstallment && valueType != ProceduralCosts
  {
    // The literals differ in their first character, which keeps the fee
    // value types apart from "Procedural Costs".
    assert ProceduralCosts[0] != RemainingAmount[0];
    || (actionType in {Civil, Labor} && valueType in {ProvidedAmount, RemainingAmount})
    || (actionType == SocialSecurityRpvCourtOrder && valueType in {Rpv, CourtOrder, RemainingAmount})
  }

  /** The "main amount" value types, the only ones that carry a consultant
      commission under the fee rule: every value type some fee combination
      admits except "Remaining Amount". */
  function PrincipalAmount(valueType: string): (b: bool)
    ensures b <==> && (FeeCombination(Civil, valueType) || FeeCombination(SocialSecurityRpvCourtOrder, valueType))
                   && valueType != RemainingAmount
  {
    valueType in {ProvidedAmount, Rpv, CourtOrder}
  }

  /** The procedural-costs combination: "Procedural Costs" of any action type
      except the administrative one, and nothing else. It never overlaps a fee
      combination or a monthly installment. */
  function CostsCombination(actionType: string, valueType: string): (b: bool)
    ensures actionType == AdministrativeSocialSecurity ==> !b
    ensures b ==> valueType == ProceduralCosts
    ensures valueType == ProceduralCosts && actionType != AdministrativeSocialSecurity ==> b
    ensures b ==> !FeeCombination(actionType, valueType) && valueType != MonthlyInstallment
  {
    // "Procedural Costs" and "Monthly Installment" differ in their first character.
    assert ProceduralCosts[0] != MonthlyInstallment[0];
    valueType == ProceduralCosts && actionType != AdministrativeSocialSecurity
  }

  /** Which of the known action types pass the `startswith("Social Security")`
      test: the RPV/Court Order subtype does, the administrative subtype does
      not (its name only ends in "Social Security"), nor do Civil and Labor. */
  lemma SocialSecurityPrefixOfKnownTypes()
    ensures StartsWith(SocialSecurityRpvCourtOrder, SocialSecurityPrefix)
    ensures !StartsWith(AdministrativeSocialSecurity, SocialSecurityPrefix)
    ensures !StartsWith(Civil, SocialSecurityPrefix)
    ensures !StartsWith(Labor, SocialSecurityPrefix)
  {
    assert SocialSecurityRpvCourtOrder[..|SocialSecurityPrefix|] == SocialSecurityPrefix;
    assert AdministrativeSocialSecurity[0] != SocialSecurityPrefix[0];
  }

  /** A monthly installment is never a fee combination nor procedural costs:
      rule 1 is the only rule that can take it. */
  lemma MonthlyInstallmentOnlyInRuleOne(actionType: string)
    ensures !FeeCombination(actionType, MonthlyInstallment)
    ensures !CostsCombination(actionType, MonthlyInstallment)
  {
  }

  /** "Procedural Costs" is not a fee value type, so the fee rule and the
      procedural-costs rule never compete. */
  lemma FeeAndCostsDisjoint(actionType: string, valueType: string)
    ensures !(FeeCombination(actionType, valueType) && CostsCombination(actionType, valueType))
  {
    // The literals differ in their first character, which keeps the two guards apart.
    assert ProceduralCosts[0] != RemainingAmount[0];
  }
}

=== FILE: divergence.dfy ===
/** Where the two copies of the engine part ways. */
module Divergence {
  import opened Classification
  import opened Split
  import Division
  import Calculations
  import Calculos

  /** The copies pick different rules for exactly one classification: an
      administrative social-security case paid as a monthly installment. */
  lemma RuleChoiceDiffersOnlyOnAdministrativeInstallments(actionType: string, valueType: string)
    ensures Division.SelectRule(Calculations.Live, actionType, valueType)
            != Division.SelectRule(Calculos.Variant, actionType, valueType)
        <==> actionType == AdministrativeSocialSecurity && valueType == MonthlyInstallment
  {
    Classification.SocialSecurityPrefixOfKnownTypes();
    Classification.MonthlyInstallmentOnlyInRuleOne(actionType);
  }

  /** On that classification the live copy splits the installment while the
      alternate copy returns zeros. */
  lemma CopiesDisagreeOnAdministrativeInstallment(grossAmount: real, hasConsultant: bool)
    requires grossAmount != 0.0
    ensures Calculos.CalculateDivision(AdministrativeSocialSecurity, grossAmount, MonthlyInstallment, hasConsultant) == Zero
    ensures Calculations.CalculateDivision(AdministrativeSocialSecurity, grossAmount, MonthlyInstallment, hasConsultant).partner
            == grossAmount / 2.0
    ensures Calculations.CalculateDivision(AdministrativeSocialSecurity, grossAmount, MonthlyInstallment, hasConsultant)
            != Calculos.CalculateDivision(AdministrativeSocialSecurity, grossAmount, MonthlyInstallment, hasConsultant)
  {
    Calculos.AdministrativeInstallmentIsZero(grossAmount, hasConsultant);
    Calculations.InstallmentRule(AdministrativeSocialSecurity, grossAmount, MonthlyInstallment, hasConsultant);
  }

  /** Procedural costs and unmatched classifications do not depend on the
      rates: there the two copies return the same split. */
  lemma CopiesAgreeWithoutRates(actionType: string, grossAmount: real, valueType: string, hasConsultant: bool)
    requires Division.SelectRule(Calculos.Variant, actionType, valueType) in {Division.ProceduralCostsRule, Division.Fallback}
    requires !(actionType == AdministrativeSocialSecurity && valueType == MonthlyInstallment)
    ensures Calculations.CalculateDivision(actionType, grossAmount, valueType, hasConsultant)
            == Calculos.CalculateDivision(actionType, grossAmount, valueType, hasConsultant)
  {
    RuleChoiceDiffersOnlyOnAdministrativeInstallments(actionType, valueType);
  }
}

=== FILE: division.dfy ===
/** The revenue-division rule engine, written once over the two things its
    copies disagree on: the rates, and whether the social-security installment
    rule also admits the "Administrative Social Security" action type. */
module Division {
  import opened Classification
  import opened Split

  /** A deployment of the engine. */
  datatype Config = Config(feeRate: real, commissionRate: real, admitsAdministrative: bool)

  /** The rules, in the order the engine tries them. */
  datatype Rule = SocialSecurityInstallmentRule | PercentageFeeRule | ProceduralCostsRule | Fallback

  function Rank(rule: Rule): nat {
    match rule
    case SocialSecurityInstallmentRule => 0
    case PercentageFeeRule => 1
    case ProceduralCostsRule => 2
    case Fallback => 3
  }

  /** The guard of the social-security installment rule: a monthly
      installment of an action type starting with "Social Security", or of the
      administrative type where the configuration admits it. It never overlaps
      the guard of a later rule. */
  function InstallmentCombination(cfg: Config, actionType: string, valueType: string): (b: bool)
    ensures actionType != AdministrativeSocialSecurity ==>
              (b <==> valueType == MonthlyInstallment && StartsWith(actionType, SocialSecurityPrefix))
    ensures !cfg.admitsAdministrative ==>
              (b <==> valueType == MonthlyInstallment && StartsWith(actionType, SocialSecurityPrefix))
    ensures actionType == AdministrativeSocialSecurity ==>
              (b <==> cfg.admitsAdministrative && valueType == MonthlyInstallment)
    ensures b ==> !FeeCombination(actionType, valueType) && !CostsCombination(actionType, valueType)
  {
    SocialSecurityPrefixOfKnownTypes();
    && (StartsWith(actionType, SocialSecurityPrefix)
        || (cfg.admitsAdministrative && actionType == AdministrativeSocialSecurity))
    && valueType == MonthlyInstallment
  }

  /** Whether `rule`'s own guard holds, regardless of the rules before it. */
  predicate Applies(cfg: Config, rule: Rule, actionType: string, valueType: string) {
    match rule
    case SocialSecurityInstallmentRule => InstallmentCombination(cfg, actionType, valueType)
    case PercentageFeeRule => FeeCombination(actionType, valueType)
    case ProceduralCostsRule => CostsCombination(actionType, valueType)
    case Fallback => true
  }

  /** First match wins: the chosen rule applies, and no rule tried before it does. */
  function SelectRule(cfg: Config, actionType: string, valueType: string): (r: Rule)
    ensures Applies(cfg, r, actionType, valueType)
    ensures forall q: Rule :: Rank(q) < Rank(r) ==> !Applies(cfg, q, actionType, valueType)
  {
    if InstallmentCombination(cfg, actionType, valueType) then SocialSecurityInstallmentRule
    else if FeeCombination(actionType, valueType) then PercentageFeeRule
    else if CostsCombination(actionType, valueType) then ProceduralCostsRule
    else Fallback
  }

  /** Rule 1: nothing to the client, half to the partner, half to the finance
      manager, who pays the consultant's `commission` out of that half. */
  function InstallmentSplit(grossAmount: real, commission: real, hasConsultant: bool): (r: Shares)
    ensures r.Total() == grossAmount
    ensures r.client == 0.0 && r.partner == grossAmount / 2.0
    ensures r.consultant == (if hasConsultant then commission else 0.0)
    ensures r.financeManager + r.consultant == grossAmount / 2.0
  {
    var base := Shares(0.0, grossAmount / 2.0, grossAmount / 2.0, 0.0);
    if hasConsultant then WithCommission(base, commission) else base
  }

  /** Rule 2: the client keeps all but `totalFees`, the fees are halved between
      finance manager and partner, and a payable commission comes out of the
      finance manager's half. */
  function FeeSplit(grossAmount: real, totalFees: real, commission: real, payCommission: bool): (r: Shares)
    ensures r.Total() == grossAmount
    ensures r.client == grossAmount - totalFees
    ensures r.partner == totalFees / 2.0
    ensures r.consultant == (if payCommission then commission else 0.0)
    ensures r.financeManager + r.consultant == totalFees / 2.0
  {
    var base := Shares(grossAmount - totalFees, totalFees / 2.0, totalFees / 2.0, 0.0);
    if payCommission then WithCommission(base, commission) else base
  }

  /** Rule 3: an even split between finance manager and partner, never a commission. */
  function CostsSplit(grossAmount: real): (r: Shares)
    ensures r.Total() == grossAmount
    ensures r.client == 0.0 && r.consultant == 0.0
    ensures r.financeManager == r.partner
  {
    Shares(0.0, grossAmount / 2.0, grossAmount / 2.0, 0.0)
  }

  /** The engine: the split of the first rule that applies, zeros if none does.
      Whatever the rule, the firm and the partner come out even once the
      consultant's commission is counted as part of the firm's half. */
  function Divide(cfg: Config, actionType: string, grossAmount: real, valueType: string, hasConsultant: bool): (r: Shares)
    ensures SelectRule(cfg, actionType, valueType) != Fallback ==> r.Total() == grossAmount
    ensures SelectRule(cfg, actionType, valueType) == Fallback ==> r == Zero
    ensures r.financeManager + r.consultant == r.partner
    ensures !hasConsultant ==> r.consultant == 0.0
  {
    match SelectRule(cfg, actionType, valueType)
    case SocialSecurityInstallmentRule =>
      InstallmentSplit(grossAmount, grossAmount * cfg.commissionRate, hasConsultant)
    case PercentageFeeRule =>
      FeeSplit(grossAmount, grossAmount * cfg.feeRate, grossAmount * cfg.commissionRate,
               hasConsultant && PrincipalAmount(valueType))
    case ProceduralCostsRule => CostsSplit(grossAmount)
    case Fallback => Zero
  }

  /** The selected rule is the only rule that applies with no earlier rule applying. */
  lemma FirstMatchIsUnique(cfg: Config, actionType: string, valueType: string, q: Rule)
    requires Applies(cfg, q, actionType, valueType)
    requires forall p: Rule :: Rank(p) < Rank(q) ==> !Applies(cfg, p, actionType, valueType)
    ensures SelectRule(cfg, actionType, valueType) == q
  {
  }

  /** Rule 1 has priority: whenever its guard holds, its split is the result,
      whatever the later guards say. */
  lemma InstallmentRuleHasPriority(cfg: Config, actionType: string, grossAmount: real, valueType: string, hasConsultant: bool)
    requires InstallmentCombination(cfg, actionType, valueType)
    ensures var r := Divide(cfg, actionType, grossAmount, valueType, hasConsultant);
            && r == InstallmentSplit(grossAmount, grossAmount * cfg.commissionRate, hasConsultant)
            && r.consultant == (if hasConsultant then grossAmount * cfg.commissionRate else 0.0)
  {
  }

  /** The fee rule's split, once selected: the client keeps all but the fee
      rate times the amount, and the consultant receives the commission rate
      times the amount exactly when there is one and the value type is a
      principal amount. */
  lemma PercentageFeeRuleSplit(cfg: Config, actionType: string, grossAmount: real, valueType: string, hasConsultant: bool)
    requires SelectRule(cfg, actionType, valueType) == PercentageFeeRule
    ensures var r := Divide(cfg, actionType, grossAmount, valueType, hasConsultant);
            && r == FeeSplit(grossAmount, grossAmount * cfg.feeRate, grossAmount * cfg.commissionRate,
                             hasConsultant && PrincipalAmount(valueType))
            && r.client == grossAmount - grossAmount * cfg.feeRate
            && r.partner == grossAmount * cfg.feeRate / 2.0
            && r.consultant == (if hasConsultant && PrincipalAmount(valueType) then grossAmount * cfg.commissionRate else 0.0)
  {
  }

  /** With no rule applying, every share is exactly zero. */
  lemma FallbackIsZero(cfg: Config, actionType: string, grossAmount: real, valueType: string, hasConsultant: bool)
    requires !InstallmentCombination(cfg, actionType, valueType)
    requires !FeeCombination(actionType, valueType)
    requires !CostsCombination(actionType, valueType)
    ensures Divide(cfg, actionType, grossAmount, valueType, hasConsultant) == Zero
  {
  }

  /** For a non-zero amount the all-zero split arises exactly when no rule
      fires: every firing rule gives someone a non-zero share. */
  lemma ZeroExactlyOnFallback(cfg: Config, actionType: string, grossAmount: real, valueType: string, hasConsultant: bool)
    requires grossAmount != 0.0
    ensures Divide(cfg, actionType, grossAmount, valueType, hasConsultant) == Zero
            <==> SelectRule(cfg, actionType, valueType) == Fallback
  {
    var r := Divide(cfg, actionType, grossAmount, valueType, hasConsultant);
    match SelectRule(cfg, actionType, valueType)
    case SocialSecurityInstallmentRule =>
      assert r.partner != 0.0;
    case PercentageFeeRule =>
      assert r.client + 2.0 * r.partner == grossAmount;
    case ProceduralCostsRule =>
      assert r.partner != 0.0;
    case Fallback =>
  }

  /** The consultant is paid from the finance manager's share only: adding a
      consultant leaves the client's and the partner's shares unchanged and
      moves exactly the commission from the finance manager to the consultant. */
  lemma CommissionComesFromFinanceManager(cfg: Config, actionType: string, grossAmount: real, valueType: string)
    ensures var with := Divide(cfg, actionType, grossAmount, valueType, true);
            var without := Divide(cfg, actionType, grossAmount, valueType, false);
            && with.client == without.client
            && with.partner == without.partner
            && without.consultant == 0.0
            && with.financeManager + with.consultant == without.financeManager
  {
    match SelectRule(cfg, actionType, valueType)
    case SocialSecurityInstallmentRule =>
      assert Divide(cfg, actionType, grossAmount, valueType, true)
          == InstallmentSplit(grossAmount, grossAmount * cfg.commissionRate, true);
    case PercentageFeeRule =>
      assert Divide(cfg, actionType, grossAmount, valueType, true)
          == FeeSplit(grossAmount, grossAmount * cfg.feeRate, grossAmount * cfg.commissionRate, PrincipalAmount(valueType));
    case ProceduralCostsRule =>
    case Fallback =>
  }

  /** Under rule 1 a commission of at most half the amount leaves every share
      non-negative. */
  lemma InstallmentSplitFloor(grossAmount: real, commission: real, hasConsultant: bool)
    requires 0.0 <= commission <= grossAmount / 2.0
    ensures var r := InstallmentSplit(grossAmount, commission, hasConsultant);
            r.NonNegative() && r.financeManager >= grossAmount / 2.0 - commission
  {
  }

  /** Under the fee rule, fees of at most the amount and a commission of at most
      half the fees leave every share non-negative. */
  lemma FeeSplitFloor(grossAmount: real, totalFees: real, commission: real, payCommission: bool)
    requires 0.0 <= commission <= totalFees / 2.0 && totalFees <= grossAmount
    ensures var r := FeeSplit(grossAmount, totalFees, commission, payCommission);
            r.NonNegative() && r.financeManager >= totalFees / 2.0 - commission
  {
  }

}

=== FILE: installments.dfy ===
/** The engine as the installment generator uses it: every installment of a
    plan is divided as a "Monthly Installment" of the same amount, by the live
    copy. Dates and persistence are not modelled. */
module Installments {
  import opened Classification
  import opened Split
  import Calculations

  /** The number of installments `range(count)` steps through: none for a
      negative count. */
  function InstallmentCount(count: int): nat {
    if count < 0 then 0 else count
  }

  /** The splits recorded for `count` installments of `installmentAmount`;
      a count below one records nothing. */
  method PlanSplits(actionType: string, installmentAmount: real, count: int, hasConsultant: bool)
    returns (splits: seq<Shares>)
    ensures |splits| == InstallmentCount(count)
    ensures count <= 0 ==> splits == []
    ensures forall i :: 0 <= i < |splits| ==>
              splits[i] == Calculations.CalculateDivision(actionType, installmentAmount, MonthlyInstallment, hasConsultant)
  {
    splits := [];
    var i := 0;
    while i < count
      invariant 0 <= i
      invariant count >= 0 ==> i <= count
      invariant count < 0 ==> i == 0
      invariant |splits| == i
      invariant forall k :: 0 <= k < i ==>
                  splits[k] == Calculations.CalculateDivision(actionType, installmentAmount, MonthlyInstallment, hasConsultant)
    {
      var shares := Calculations.CalculateDivision(actionType, installmentAmount, MonthlyInstallment, hasConsultant);
      splits := splits + [shares];
      i := i + 1;
    }
  }

  /** Column-wise sum of the splits of a plan. */
  function PlanTotal(splits: seq<Shares>): Shares {
    if splits == [] then Zero else PlanTotal(splits[..|splits| - 1]).Plus(splits[|splits| - 1])
  }

  /** `s` taken `n` times. */
  function Scale(s: Shares, n: nat): (r: Shares)
    ensures r.Total() == (n as real) * s.Total()
  {
    Shares((n as real) * s.client, (n as real) * s.financeManager,
           (n as real) * s.partner, (n as real) * s.consultant)
  }

  /** A plan whose installments all split alike totals that split times the
      number of installments, column by column. */
  lemma {:induction false} UniformPlanTotal(splits: seq<Shares>, s: Shares)
    requires forall i :: 0 <= i < |splits| ==> splits[i] == s
    ensures PlanTotal(splits) == Scale(s, |splits|)
  {
    if splits != [] {
      var n := |splits| - 1;
      var prefix := splits[..n];
      assert forall i :: 0 <= i < |prefix| ==> prefix[i] == splits[i];
      UniformPlanTotal(prefix, s);
      assert PlanTotal(splits) == Scale(s, n).Plus(s);
      ScaleStep(s, n);
    }
  }

  lemma ScaleStep(s: Shares, n: nat)
    ensures Scale(s, n + 1) == Scale(s, n).Plus(s)
  {
    var m := n as real;
    assert (m + 1.0) * s.client == m * s.client + s.client;
    assert (m + 1.0) * s.financeManager == m * s.financeManager + s.financeManager;
    assert (m + 1.0) * s.partner == m * s.partner + s.partner;
    assert (m + 1.0) * s.consultant == m * s.consultant + s.consultant;
  }

  lemma ScaledHalf(s: Shares, n: nat, g: real)
    requires s.Total() == g && s.partner == g / 2.0
    ensures Scale(s, n).Total() == (n as real) * g
    ensures Scale(s, n).partner == (n as real) * g / 2.0
  {
  }

  /** The shares of a whole plan, as `PlanSplits` records it, add up to the
      installment amount once per installment, the partner receiving half of
      it. The plan has `InstallmentCount(count)` splits, none for a count
      below one. For an action failing rule 1's guard the plan totals zero. */
  lemma PlanAddsUp(actionType: string, installmentAmount: real, count: int, hasConsultant: bool, splits: seq<Shares>)
    requires |splits| == InstallmentCount(count)
    requires forall i :: 0 <= i < |splits| ==>
               splits[i] == Calculations.CalculateDivision(actionType, installmentAmount, MonthlyInstallment, hasConsultant)
    ensures Calculations.InstallmentGuard(actionType, MonthlyInstallment) ==>
              && PlanTotal(splits).Total() == (|splits| as real) * installmentAmount
              && PlanTotal(splits).partner == (|splits| as real) * installmentAmount / 2.0
    ensures !Calculations.InstallmentGuard(actionType, MonthlyInstallment) ==> PlanTotal(splits) == Zero
  {
    var s := Calculations.CalculateDivision(actionType, installmentAmount, MonthlyInstallment, hasConsultant);
    MonthlySplit(actionType, installmentAmount, hasConsultant);
    if Calculations.InstallmentGuard(actionType, MonthlyInstallment) {
      UniformPlanAddsUp(splits, s, installmentAmount);
    } else {
      ZeroPlanTotal(splits);
    }
  }

  /** One installment's split: the whole amount, half to the partner, under
      rule 1; zeros otherwise. */
  lemma MonthlySplit(actionType: string, installmentAmount: real, hasConsultant: bool)
    ensures var s := Calculations.CalculateDivision(actionType, installmentAmount, MonthlyInstallment, hasConsultant);
            && (Calculations.InstallmentGuard(actionType, MonthlyInstallment) ==>
                  s.Total() == installmentAmount && s.partner == installmentAmount / 2.0)
            && (!Calculations.InstallmentGuard(actionType, MonthlyInstallment) ==> s == Zero)
  {
    if Calculations.InstallmentGuard(actionType, MonthlyInstallment) {
      Calculations.InstallmentRule(actionType, installmentAmount, MonthlyInstallment, hasConsultant);
    } else {
      OtherInstallmentsAreZero(actionType, installmentAmount, hasConsultant);
    }
  }

  /** A plan of identical splits `s`, each the whole amount `g` with half to
      the partner, totals `g` and `g / 2` per installment. */
  lemma UniformPlanAddsUp(splits: seq<Shares>, s: Shares, g: real)
    requires forall i :: 0 <= i < |splits| ==> splits[i] == s
    requires s.Total() == g && s.partner == g / 2.0
    ensures PlanTotal(splits).Total() == (|splits| as real) * g
    ensures PlanTotal(splits).partner == (|splits| as real) * g / 2.0
  {
    UniformPlanTotal(splits, s);
    ScaledHalf(s, |splits|, g);
  }

  /** A plan of zero splits totals zero. */
  lemma ZeroPlanTotal(splits: seq<Shares>)
    requires forall i :: 0 <= i < |splits| ==> splits[i] == Zero
    ensures PlanTotal(splits) == Zero
  {
    UniformPlanTotal(splits, Zero);
    assert Scale(Zero, |splits|) == Zero;
  }

  /** Installments of an action outside the social-security family (Civil,
      Labor, or any other type failing rule 1's guard) match no rule: every
      installment is recorded as zeros. */
  lemma OtherInstallmentsAreZero(actionType: string, installmentAmount: real, hasConsultant: bool)
    requires !Calculations.InstallmentGuard(actionType, MonthlyInstallment)
    ensures Calculations.CalculateDivision(actionType, installmentAmount, MonthlyInstallment, hasConsultant) == Zero
  {
    Classification.MonthlyInstallmentOnlyInRuleOne(actionType);
  }
}

=== FILE: split.dfy ===
/** The four-way split of one payment, as the engine returns it. */
module Split {

  /** Shares of a gross amount for the client, the firm (finance manager),
      the partner and the consultant. */
  datatype Shares = Shares(client: real, financeManager: real, partner: real, consultant: real)
  {
    /** The sum of the four shares. */
    function Total(): real {
      client + financeManager + partner + consultant
    }

    /** Column-wise sum of two splits. */
    function Plus(other: Shares): Shares {
      Shares(client + other.client, financeManager + other.financeManager,
             partner + other.partner, consultant + other.consultant)
    }

    predicate NonNegative() {
      client >= 0.0 && financeManager >= 0.0 && partner >= 0.0 && consultant >= 0.0
    }
  }

  /** The all-zero split the engine starts from and returns when no rule applies. */
  const Zero: Shares := Shares(0.0, 0.0, 0.0, 0.0)

  /** Pays `commission` to the consultant out of the finance manager's share,
      leaving the client and the partner untouched. */
  function WithCommission(s: Shares, commission: real): (r: Shares)
    requires s.consultant == 0.0
    ensures r.Total() == s.Total()
    ensures r.client == s.client && r.partner == s.partner
    ensures r.consultant == commission
    ensures r.financeManager + r.consultant == s.financeManager
  {
    s.(financeManager := s.financeManager - commission, consultant := commission)
  }
}
